=== FILE: README.md ===
# Karazhan opera introduction, Medivh duel and Wrath of the Titans — a Dafny model

This project models three scripts from AzerothCore's Karazhan file
(`src/server/scripts/EasternKingdoms/Karazhan/karazhan.cpp`). Each is a
sequencer that the host drives by calling it once per tick with the
elapsed time.

- **Barnes** (`npc_barnes`, `barnes.dfy`). An escorted stage manager. At
  waypoint 4 the escort pauses. While paused, `UpdateAI` counts `TalkTimer`
  down. Each time it runs out, Barnes speaks the next of four entries from the
  dialogue table of the selected opera (Oz, Red Riding Hood, or Romulo and
  Julianne). The expiry after the fourth entry dismisses the spotlight and
  resumes the walk. At waypoint 9 he summons the opera's cast and opens the
  curtains. A gossip menu starts the event, and game masters can switch which
  opera is selected.
- **Image of Medivh** (`npc_image_of_medivh`, `medivh.dfy`). `Reset` summons
  the dragon Arcanagos and registers the image with the instance. Each expiry
  of `YellTimer` then fires one numbered step of a 14-step duel, and the step
  returns the next wait. While the step counter is 7 or 8, both sides also
  throw fireballs on their own countdowns.
- **Wrath of the Titans** (`wrath_titans.dfy`). A stacker spell gives the aura
  five charges. Each qualifying spell then spends one charge and casts a bolt
  that depends on the spell's school.

`host.dfy` holds what the scripts see of their host:

- the C++ integer widths (`uint8`, `uint32`, `int32`), with the
  `int32 += uint32` wrap-around written out;
- the instance's progress tracker, a class with maps of boss states, data
  slots and handle slots;
- `Effect`, the requests made to the host (talk, cast, summon, despawn, doors,
  start the escort).

Each creature script is a class whose fields are the C++ members. It appends
its host requests to a `log`. Each `UpdateAI` method is proved equal to a
pure `Update` function over a state datatype. `Run` folds `Update` over a
sequence of ticks, and the lemmas over `Run` state properties that hold for
any tick sizes.

The host's answers are parameters:

- a summon's result is an `Option<Guid>`, where `None` means the summon
  returned null;
- each tick passes the set of creature handles that still resolve
  (`live`), so a stale handle makes the action that needs it a no-op.

Two constants come from headers that are not part of this model, and their
AzerothCore values are used: `EVENT_OZ`/`EVENT_HOOD`/`EVENT_RAJ` = 1/2/3
(`karazhan.h`) and `GOSSIP_ACTION_INFO_DEF` = 1000 (`ScriptedGossip.h`).
`SetData(DATA_OPERA_OZ_DEATHCOUNT, IN_PROGRESS)` stores the code of
`IN_PROGRESS`, which is 1.

Behaviour modelled as the code has it:

- When a countdown runs out, any overshoot is dropped. A tick fires at most
  one dialogue line or duel step.
- `StartEvent` checks nothing itself. Only the gossip menu gates the start.
- A game master may switch the opera while the dialogue is paused. The
  remaining lines are then read from the new table.
- The fireball countdowns are not cleared when the step counter leaves 7..8.
- The Medivh step counter is a `uint8` and wraps at 256.
- `Reset` of the image leaves `Step` and `YellTimer` as they were, and never
  clears `EventStarted`.

## Model

| member | source | states |
|---|---|---|
| `KarazhanHost.AddInt32` | src/server/scripts/EasternKingdoms/Karazhan/karazhan.cpp:547-548 | `int32 += uint32` equals the plain sum whenever that sum fits in int32, and the sum less 2^32 when it passes the int32 maximum |
| `Barnes.TalkLine` | src/server/scripts/EasternKingdoms/Karazhan/karazhan.cpp:213-243 | for a known opera, entry `count` speaks text id 4·(event−1)+count, except Oz entry 0 (text id 0), which speaks nothing; the old timer is always replaced by the entry's own wait, which is nonzero (5000..18000); an unknown event id speaks nothing and keeps the timer; text id 0 is never spoken |
| `Barnes.DecorationsCast` | src/server/scripts/EasternKingdoms/Karazhan/karazhan.cpp:245-277 | Oz summons Dorothee, Roar, Tinhead and Strawman (rows 0..3); Hood summons only the Grandmother (row 4); Romulo and Julianne summons only Julianne (row 5); any other id summons nobody |
| `Barnes.Update` | src/server/scripts/EasternKingdoms/Karazhan/karazhan.cpp:279-301 | at most one effect per tick; nothing happens unless paused; when `TalkTimer > diff` the timer drops by exactly `diff` and nothing else changes; `TalkCount` grows by at most one and stays ≤ 4; an expiry with `TalkCount` ≤ 3 talks entry `TalkCount` (the line and wait `TalkLine` gives) and counts one up; the expiry at `TalkCount` 4 ends the pause, despawns the spotlight if its handle still resolves, and speaks nothing; the pause ends on no other tick |
| `Barnes.Run` | src/server/scripts/EasternKingdoms/Karazhan/karazhan.cpp:283-299 | over any sequence of ticks, `TalkCount` stays ≤ 4, so every `Talk` index stays inside the four-entry tables |
| `Barnes.RunWhileWalking` | src/server/scripts/EasternKingdoms/Karazhan/karazhan.cpp:283-300 | while not paused, ticks change nothing and produce no effects |
| `Barnes.PauseCounts` | src/server/scripts/EasternKingdoms/Karazhan/karazhan.cpp:283-299 | over any ticks a pause keeps the opera, `TalkCount` only grows and stays ≤ 4, and a pause that has ended took at least one tick per remaining entry plus the closing tick |
| `Barnes.TickSpeaks` | src/server/scripts/EasternKingdoms/Karazhan/karazhan.cpp:285-297 | one tick of a pause speaks exactly the table entry it moves past, and nothing when it moves past none |
| `Barnes.PauseSpeaks` | src/server/scripts/EasternKingdoms/Karazhan/karazhan.cpp:283-299 | over any ticks, a pause speaks the selected table's lines from the current `TalkCount` on, in table order |
| `Barnes.PauseEnds` | src/server/scripts/EasternKingdoms/Karazhan/karazhan.cpp:283-299 | with `TalkTimer` ≤ 18000, one tick per remaining entry plus the closing tick, each of at least 18000 ms, end the pause with all four entries talked, so a pause cannot stall |
| `Barnes.PauseSpeaksTheScript` | src/server/scripts/EasternKingdoms/Karazhan/karazhan.cpp:283-299 | for any tick sizes, a pause speaks the selected table's lines in table order, starting at the current `TalkCount` and never past entry 3; a pause that has ended spoke up to entry 3 and took at least one tick per remaining entry plus the closing tick |
| `Barnes.FullPauseSpeaksFourEntries` | src/server/scripts/EasternKingdoms/Karazhan/karazhan.cpp:186-188 | a pause that starts at `TalkCount` 0 (waypoint 4) and ends has spoken exactly the lines of table entries 0..3, over at least five ticks |
| `Barnes.BarnesAI.constructor` | src/server/scripts/EasternKingdoms/Karazhan/karazhan.cpp:137-141 | the event id starts at 0, with the instance attached |
| `Barnes.BarnesAI.Reset` | src/server/scripts/EasternKingdoms/Karazhan/karazhan.cpp:153-163 | clears the spotlight handle, sets `TalkCount` 0 and `TalkTimer` 2000, clears `PerformanceReady`, and reads the event id from the instance's opera slot |
| `Barnes.BarnesAI.StartEvent` | src/server/scripts/EasternKingdoms/Karazhan/karazhan.cpp:165-174 | sets the opera boss state to IN_PROGRESS; for Oz only, rearms the Oz death counter; starts the escort; local state is unchanged |
| `Barnes.BarnesAI.WaypointReached` | src/server/scripts/EasternKingdoms/Karazhan/karazhan.cpp:178-211 | waypoint 0: tuxedo and left stage door open. Waypoint 4: `TalkCount` 0 and paused; the spotlight handle is replaced only when the summon succeeds. Waypoint 8: performance ready; the left door is used unless the event is Hood. Waypoint 9: the cast is summoned, the decorations marker is written and the curtains are used. Every other id, and every field these cases do not name, is unchanged |
| `Barnes.BarnesAI.Talk` | src/server/scripts/EasternKingdoms/Karazhan/karazhan.cpp:213-243 | requires `count < 4`; changes only `TalkTimer`, to the value `TalkLine` gives, and logs `TalkLine`'s line if there is one |
| `Barnes.BarnesAI.PrepareEncounter` | src/server/scripts/EasternKingdoms/Karazhan/karazhan.cpp:245-277 | the loop over `index` summons exactly the selected opera's rows in row order; then the decorations slot holds the event id, whichever id it is |
| `Barnes.BarnesAI.UpdateAI` | src/server/scripts/EasternKingdoms/Karazhan/karazhan.cpp:279-301 | the new state and logged effects are exactly `Update`'s; `Talk` is only called with `TalkCount` ≤ 3 |
| `Barnes.OnGossipHello` | src/server/scripts/EasternKingdoms/Karazhan/karazhan.cpp:336-367 | the first start step is offered iff Moroes is DONE and the opera is not DONE; the three event switches are offered iff that holds and the player is a game master; the confirmation is never offered here; WIPED text iff open and the opera state is FAIL; IS_READY iff open and not FAIL; NOT_READY iff not open |
| `Barnes.OnGossipSelect` | src/server/scripts/EasternKingdoms/Karazhan/karazhan.cpp:304-334 | the confirmation is offered iff the first step was chosen; choosing the confirmation starts the event: opera IN_PROGRESS, the Oz death counter rearmed when the event is Oz, the escort started, Barnes's own state unchanged; a switch sets the event id and leaves the rest of the state as it was, even mid-pause; unknown actions change nothing |
| `ImageOfMedivh.StepWait` | src/server/scripts/EasternKingdoms/Karazhan/karazhan.cpp:455-534 | steps 1..14 wait 1000..20000 ms; every other step number waits 2000 |
| `ImageOfMedivh.StepEffects` | src/server/scripts/EasternKingdoms/Karazhan/karazhan.cpp:455-534 | no step throws a fireball; only steps 1..14 do anything; when Arcanagos does not resolve, no action involving him is requested |
| `ImageOfMedivh.Exchange` | src/server/scripts/EasternKingdoms/Karazhan/karazhan.cpp:545-561 | outside steps 7..8 nothing changes. Inside them, each countdown grows by `diff`. A countdown whose sum reaches 6000 goes back to 0 and throws its fireball exactly when Arcanagos resolves; below 6000 it keeps the sum and throws nothing. A sum past the int32 maximum wraps first (less 2^32) and the same threshold rule applies to the wrapped value. Both can fire in one tick, each at most once (two effects are Arcanagos's fireball then Medivh's), and both end below 6000. The only effects ever logged are Arcanagos's fireball at Medivh and Medivh's at Arcanagos, so a side whose countdown stays below 6000 throws nothing |
| `ImageOfMedivh.ExchangeThrowsOncePerSide` | src/server/scripts/EasternKingdoms/Karazhan/karazhan.cpp:549-560 | in one tick each side's fireball is logged at most once |
| `ImageOfMedivh.Update` | src/server/scripts/EasternKingdoms/Karazhan/karazhan.cpp:536-562 | a step fires iff the event was started and `YellTimer ≤ diff`. It is the current step, the counter moves on by one modulo 256, and the wait becomes `StepWait` of that step, the overshoot dropped. When `diff < YellTimer` the timer drops by `diff`; when not started and `YellTimer ≤ diff` it stays as it was. The event flag and the Arcanagos handle are kept. The fireball countdowns change only if the counter is 7..8 after the tick, and are then below 6000 (the effects are stated by `UpdatePerformsStep`) |
| `ImageOfMedivh.UpdatePerformsStep` | src/server/scripts/EasternKingdoms/Karazhan/karazhan.cpp:536-562 | a fired step performs exactly `StepEffects` of that step first, and anything after it is Arcanagos's fireball at Medivh or Medivh's at Arcanagos; a tick that fires no step logs only those two fireballs; fireballs fly only with the counter at 7..8; firing step 6 arms the countdowns at 5500 and 6600 before the same tick's exchange, so Medivh's first fireball goes off on that tick (Arcanagos's once `diff` ≥ 500) |
| `ImageOfMedivh.Next` | src/server/scripts/EasternKingdoms/Karazhan/karazhan.cpp:541 | `Step++` on the uint8 counter is one more, modulo 256 |
| `ImageOfMedivh.CounterFollowsFires` | src/server/scripts/EasternKingdoms/Karazhan/karazhan.cpp:538-543 | over any ticks the fired steps are consecutive counter values from the current one, the counter ends that many increments on, at most one fire per tick, and nothing fires unless the event was started |
| `ImageOfMedivh.StepsFireInOrder` | src/server/scripts/EasternKingdoms/Karazhan/karazhan.cpp:538-543 | over any ticks the fired steps are consecutive step numbers (modulo 256) starting at the current one, with no skip and no repeat |
| `ImageOfMedivh.DuelStartsAtStepOne` | src/server/scripts/EasternKingdoms/Karazhan/karazhan.cpp:407-412 | from step 1, the i-th fired step is step i+1 (for the first 255 fires) |
| `ImageOfMedivh.ResetState` | src/server/scripts/EasternKingdoms/Karazhan/karazhan.cpp:425-451 | registers the image iff the instance exists, no image is registered and the summon succeeded, and then sets `EventStarted` (which it never clears) and keeps the summoned Arcanagos; otherwise the image despawns itself; Arcanagos is summoned iff the instance exists and no image is registered, so a double start or a missing instance requests no second dragon; both countdowns become 0; the step counter and its timer are kept |
| `ImageOfMedivh.FailedStartFiresNothing` | src/server/scripts/EasternKingdoms/Karazhan/karazhan.cpp:431-441 | a fresh image whose first `Reset` did not register it (double start, missing instance, failed summon) never fires a step, whatever ticks follow |
| `ImageOfMedivh.MedivhAI.constructor` | src/server/scripts/EasternKingdoms/Karazhan/karazhan.cpp:407-412 | step 1, first wait 5000, event not started |
| `ImageOfMedivh.MedivhAI.Reset` | src/server/scripts/EasternKingdoms/Karazhan/karazhan.cpp:425-451 | state and effects are exactly `ResetState`'s; the instance's image slot is written with this image's handle only on registration |
| `ImageOfMedivh.MedivhAI.NextStep` | src/server/scripts/EasternKingdoms/Karazhan/karazhan.cpp:455-534 | returns `StepWait(n)` and logs `StepEffects(n)`; only step 6 touches the countdowns, arming them to 5500 and 6600 |
| `ImageOfMedivh.MedivhAI.UpdateAI` | src/server/scripts/EasternKingdoms/Karazhan/karazhan.cpp:536-562 | the new state and logged effects are exactly `Update`'s |
| `ImageOfMedivh.MedivhAI.CountDown` | src/server/scripts/EasternKingdoms/Karazhan/karazhan.cpp:538-543 | the new state and logged effects are exactly `Yell`'s, the step-countdown half of `Update` |
| `ImageOfMedivh.MedivhAI.TradeFireballs` | src/server/scripts/EasternKingdoms/Karazhan/karazhan.cpp:545-561 | the new state and logged effects are exactly `Exchange`'s |
| `WrathOfTitans.ProcSpell` | src/server/scripts/EasternKingdoms/Karazhan/karazhan.cpp:670-690 | exactly the schools other than physical and holy have a bolt, and each bolt is one of 30605..30609 |
| `WrathOfTitans.ProcSpellInjective` | src/server/scripts/EasternKingdoms/Karazhan/karazhan.cpp:670-690 | no two schools share a bolt |
| `WrathOfTitans.CheckProc` | src/server/scripts/EasternKingdoms/Karazhan/karazhan.cpp:647-659 | refuses a proc without spell information and physical or holy spells; it accepts exactly the schools `HandleProc` has a bolt for |
| `WrathOfTitans.HandleProc` | src/server/scripts/EasternKingdoms/Karazhan/karazhan.cpp:661-694 | casts the school's bolt iff there is a target, the wearer is a player and the school has a bolt, and then spends exactly one charge; otherwise the stack is unchanged |
| `WrathOfTitans.HandleDummy` | src/server/scripts/EasternKingdoms/Karazhan/karazhan.cpp:619-629 | a caster casts the aura on itself, and if it then wears the aura the stack becomes 5; with no caster nothing happens |
| `WrathOfTitans.Proc` | src/server/scripts/EasternKingdoms/Karazhan/karazhan.cpp:696-700 | the host runs `HandleProc` only after `CheckProc`; a bolt is cast iff the proc qualifies, and that spends exactly one charge |
| `WrathOfTitans.QualifyingProcsSpendCharges` | src/server/scripts/EasternKingdoms/Karazhan/karazhan.cpp:661-694 | any run of qualifying procs casts, in order, the bolt of each proc's school, and spends one charge per proc |
| `WrathOfTitans.FiveProcsSpendTheStacker` | src/server/scripts/EasternKingdoms/Karazhan/karazhan.cpp:619-694 | after the stacker, five qualifying procs cast five bolts and leave a stack of 0 |

## Left out

- Escort movement and waypoint progression belong to the `npc_escortAI`
  base class, which is not part of this model. That includes its own
  `UpdateAI`, `Start` and how `SetEscortPaused` is stored. `WaypointReached` is
  an entry point, and the escort's paused flag is the field `paused`.
- `JustEngagedWith` is empty in both creature scripts. `LOG_DEBUG` is not
  modelled.
- Cosmetic host calls are left out:
  - the spotlight's NOT_SELECTABLE flag and the cast's NON_ATTACKABLE flag;
  - `SetFacingToObject` and `SetCanFly` in the image's `Reset`.
- Step 12's run speed, `MovePoint` and `InterruptNonMeleeSpells` are one
  `FlyAway` effect.
- Float data is left out: spawn X coordinates, `SPAWN_Y/Z/O`, `ArcanagosPos`
  and orientations. Only the creature entries of `Spawns` are kept.
- A summon that fails in `PrepareEncounter` only skips a cosmetic flag, so
  each row is logged as a summon request whatever its outcome.
- The quest-credit loop of step 14 is left out. It walks the host's player
  list.
- The instance tracker is reduced to plain maps. `InstanceScript`'s own
  `SetBossState` logic is not part of this model. An unwritten slot reads as
  NOT_STARTED, 0 or empty.
- The image's `instance` may be null (it is a `Instance?` field). Barnes's is
  assumed present.
- `at_karazhan_side_entrance` is left out. Its once-only behaviour lives in
  `OnlyOnceAreaTriggerScript`, which is not part of this model.
- `spell_karazhan_temptation` is left out. It only forwards a proc to a host
  cast.
- The `Validate` hooks, `PreventDefaultAction` and `PreventHitDefaultEffect`
  are left out.
- `GetFirstSchoolInMask` is not modelled. The school is an input.
- The aura's removal at zero charges is the host's job. The stack is a plain
  integer.
- In the source, the Barnes constructor leaves `TalkCount`, `TalkTimer`,
  `PerformanceReady` uninitialised. The model starts them at 0/false, and
  starts the escort unpaused. The host calls `Reset` before the first tick.
- In the source, the image's constructor leaves `EventStarted`, `ATimer` and
  `MTimer` uninitialised. The model starts them at false and 0, so the event
  is not started until a `Reset` registers the image.
- The two halves of the image's `UpdateAI` are written as two methods,
  `ImageOfMedivh.MedivhAI.CountDown` and `ImageOfMedivh.MedivhAI.TradeFireballs`.
  The source has both inline. Behaviour is the same.
- The gossip reply only models the menu that is sent. `OnGossipSelect`'s
  constant `true` result, the sender argument and icons are left out.

=== FILE: barnes.dfy ===
/**
 * Barnes, the stage manager who introduces the Karazhan opera.
 *
 * He walks an escort path. At waypoint 4 the escort pauses and he speaks the
 * four-line introduction of the selected opera (Oz, Red Riding Hood, or Romulo
 * and Julianne), one line per expiry of `talkTimer`; the expiry after the
 * fourth line dismisses the spotlight and resumes the walk. At waypoint 9 he
 * summons the cast of the selected opera and opens the curtains.
 */
module Barnes {
  import opened KarazhanHost

  const EVENT_OZ: uint32 := 1
  const EVENT_HOOD: uint32 := 2
  const EVENT_RAJ: uint32 := 3

  const SPELL_SPOTLIGHT: nat := 25824
  const SPELL_TUXEDO: nat := 32616
  const NPC_SPOTLIGHT: nat := 19525

  predicate IsOpera(eventId: uint32)
  {
    eventId == EVENT_OZ || eventId == EVENT_HOOD || eventId == EVENT_RAJ
  }

  // ---------------------------------------------------------------------------
  // Dialogue tables and Talk

  datatype Dialogue = Dialogue(textId: int32, timer: uint32)

  const OzDialogue: seq<Dialogue> :=
    [Dialogue(0, 6000), Dialogue(1, 18000), Dialogue(2, 9000), Dialogue(3, 15000)]
  const HoodDialogue: seq<Dialogue> :=
    [Dialogue(4, 6000), Dialogue(5, 10000), Dialogue(6, 14000), Dialogue(7, 15000)]
  const RAJDialogue: seq<Dialogue> :=
    [Dialogue(8, 5000), Dialogue(9, 7000), Dialogue(10, 14000), Dialogue(11, 14000)]

  /** The table `Talk` reads for an event id; `None` when no case of its switch matches. */
  function DialogueFor(eventId: uint32): Option<seq<Dialogue>>
  {
    if eventId == EVENT_OZ then Some(OzDialogue)
    else if eventId == EVENT_HOOD then Some(HoodDialogue)
    else if eventId == EVENT_RAJ then Some(RAJDialogue)
    else None
  }

  /** What `Talk(count)` does: the line it speaks, if any, and the new `TalkTimer`. */
  datatype TalkOutcome = TalkOutcome(line: Option<int>, talkTimer: uint32)

  /**
   * The introduction lines are text ids 0..11, four per opera in opera order;
   * Oz's first entry has text id 0, which is never spoken. A known opera always
   * replaces the timer with its entry's (nonzero) wait; an unknown id does nothing.
   */
  function TalkLine(eventId: uint32, count: nat, talkTimer: uint32): (r: TalkOutcome)
    requires count < 4
    ensures r.line != Some(0)
    ensures !IsOpera(eventId) ==> r == TalkOutcome(None, talkTimer)
    ensures IsOpera(eventId) ==> 5000 <= r.talkTimer <= 18000
    ensures IsOpera(eventId) ==> r.talkTimer == DialogueFor(eventId).value[count].timer
    ensures IsOpera(eventId) ==>
      r.line == (if eventId == EVENT_OZ && count == 0 then None else Some(4 * (eventId - 1) + count))
  {
    match DialogueFor(eventId)
    case None => TalkOutcome(None, talkTimer)
    case Some(table) =>
      var entry := table[count];
      TalkOutcome(if entry.textId != 0 then Some(entry.textId as int) else None,
                  if entry.timer != 0 then entry.timer else talkTimer)
  }

  /** The host effect of speaking `line`. */
  function Said(line: Option<int>): seq<Effect>
  {
    match line
    case None => []
    case Some(t) => [Say(Self, t)]
  }

  /** The lines spoken for table entries lo..hi-1 of the selected opera, in order. */
  function Lines(eventId: uint32, lo: nat, hi: nat): seq<Effect>
    requires lo <= hi <= 4
    decreases hi - lo
  {
    if lo == hi then [] else Said(TalkLine(eventId, lo, 0).line) + Lines(eventId, lo + 1, hi)
  }

  /** The spoken lines of an effect log, in order. */
  function Spoken(es: seq<Effect>): seq<Effect>
  {
    if es == [] then [] else (if es[0].Say? then [es[0]] else []) + Spoken(es[1..])
  }

  lemma {:induction false} SpokenConcat(a: seq<Effect>, b: seq<Effect>)
    ensures Spoken(a + b) == Spoken(a) + Spoken(b)
  {
    if a == [] {
      assert a + b == b;
    } else {
      assert (a + b)[0] == a[0];
      assert (a + b)[1..] == a[1..] + b;
      SpokenConcat(a[1..], b);
    }
  }

  // ---------------------------------------------------------------------------
  // Cast of each opera

  /** Creature entries of the six `Spawns` rows (Dorothee, Roar, Tinhead, Strawman, Grandmother, Julianne). */
  const SpawnEntries: seq<nat> := [17535, 17546, 17547, 17543, 17603, 17534]

  /** The rows `PrepareEncounter` walks: `index` up to (excluding) `count`. */
  function SpawnRows(eventId: uint32): (nat, nat)
  {
    if eventId == EVENT_OZ then (0, 4)
    else if eventId == EVENT_HOOD then (4, 5)
    else if eventId == EVENT_RAJ then (5, 6)
    else (0, 0)
  }

  /** Summons of rows lo..hi-1, in row order. */
  function Summons(lo: nat, hi: nat): seq<Effect>
    requires lo <= hi <= |SpawnEntries|
    decreases hi - lo
  {
    if lo == hi then [] else Summons(lo, hi - 1) + [Summon(SpawnEntries[hi - 1])]
  }

  function Decorations(eventId: uint32): seq<Effect>
  {
    Summons(SpawnRows(eventId).0, SpawnRows(eventId).1)
  }

  /** Each opera summons exactly its own cast, and an unknown id summons nobody. */
  lemma DecorationsCast(eventId: uint32)
    ensures eventId == EVENT_OZ ==>
      Decorations(eventId) == [Summon(17535), Summon(17546), Summon(17547), Summon(17543)]
    ensures eventId == EVENT_HOOD ==> Decorations(eventId) == [Summon(17603)]
    ensures eventId == EVENT_RAJ ==> Decorations(eventId) == [Summon(17534)]
    ensures !IsOpera(eventId) ==> Decorations(eventId) == []
  {
  }

  // ---------------------------------------------------------------------------
  // The paused dialogue, one tick at a time

  datatype BarnesState = BarnesState(
    spotlight: Option<Guid>,
    talkCount: uint32,
    talkTimer: uint32,
    eventId: uint32,
    performanceReady: bool,
    paused: bool)
  {
    /** `TalkCount` only grows from at most 3, so it never passes 4. */
    predicate Valid()
    {
      talkCount <= 4
    }
  }

  datatype Ticked = Ticked(state: BarnesState, effects: seq<Effect>)

  /** The state change and effects of Barnes's `UpdateAI(diff)` after the escort's own update. */
  function Update(s: BarnesState, diff: uint32, live: set<Guid>): (r: Ticked)
    requires s.Valid()
    ensures r.state.Valid()
    ensures r.state.eventId == s.eventId && r.state.spotlight == s.spotlight
    ensures r.state.performanceReady == s.performanceReady
    ensures |r.effects| <= 1
    ensures !s.paused ==> r.state == s && r.effects == []
    ensures s.paused && diff < s.talkTimer ==>
      r.state == s.(talkTimer := s.talkTimer - diff) && r.effects == []
    ensures r.state.talkCount == s.talkCount || (r.state.talkCount == s.talkCount + 1 && r.state.paused)
    ensures s.paused && !r.state.paused ==> s.talkCount == 4 && s.talkTimer <= diff && Spoken(r.effects) == []
    ensures s.paused && s.talkTimer <= diff && s.talkCount <= 3 ==>
      var t := TalkLine(s.eventId, s.talkCount, s.talkTimer);
      r.state == s.(talkCount := s.talkCount + 1, talkTimer := t.talkTimer) && r.effects == Said(t.line)
    ensures s.paused && s.talkTimer <= diff && s.talkCount == 4 ==>
      r.state == s.(paused := false)
      && r.effects == (if Resolves(s.spotlight, live) then [Despawn(Spotlight, 0)] else [])
  {
    if !s.paused then Ticked(s, [])
    else if s.talkTimer <= diff then
      if s.talkCount > 3 then
        Ticked(s.(paused := false), if Resolves(s.spotlight, live) then [Despawn(Spotlight, 0)] else [])
      else
        var t := TalkLine(s.eventId, s.talkCount, s.talkTimer);
        Ticked(s.(talkTimer := t.talkTimer, talkCount := s.talkCount + 1), Said(t.line))
    else
      Ticked(s.(talkTimer := s.talkTimer - diff), [])
  }

  datatype TickInput = TickInput(diff: uint32, live: set<Guid>)

  /** A sequence of ticks, effects concatenated in order. */
  function Run(s: BarnesState, ticks: seq<TickInput>): (r: Ticked)
    requires s.Valid()
    ensures r.state.Valid()
    decreases |ticks|
  {
    if ticks == [] then Ticked(s, [])
    else
      var t := Update(s, ticks[0].diff, ticks[0].live);
      var rest := Run(t.state, ticks[1..]);
      Ticked(rest.state, t.effects + rest.effects)
  }

  /** Once walking again, ticks neither change Barnes's state nor produce effects. */
  lemma {:induction false} RunWhileWalking(s: BarnesState, ticks: seq<TickInput>)
    requires s.Valid() && !s.paused
    ensures Run(s, ticks) == Ticked(s, [])
    decreases |ticks|
  {
    if ticks != [] {
      RunWhileWalking(s, ticks[1..]);
    }
  }

  /** A pause keeps the opera, only counts up to 4, and ends only after the closing tick. */
  lemma {:induction false} PauseCounts(s: BarnesState, ticks: seq<TickInput>)
    requires s.Valid() && s.paused
    ensures var r := Run(s, ticks);
      r.state.eventId == s.eventId
      && s.talkCount <= r.state.talkCount <= 4
      && (!r.state.paused ==> r.state.talkCount == 4 && |ticks| >= 5 - s.talkCount)
    decreases |ticks|
  {
    if ticks != [] {
      var t := Update(s, ticks[0].diff, ticks[0].live);
      if t.state.paused {
        PauseCounts(t.state, ticks[1..]);
      } else {
        RunWhileWalking(t.state, ticks[1..]);
      }
    }
  }

  /** Consecutive ranges of table entries speak their lines one after the other. */
  lemma {:induction false} LinesAppend(eventId: uint32, a: nat, b: nat, c: nat)
    requires a <= b <= c <= 4
    ensures Lines(eventId, a, b) + Lines(eventId, b, c) == Lines(eventId, a, c)
    decreases b - a
  {
    if a < b {
      LinesAppend(eventId, a + 1, b, c);
    }
  }

  /** One tick of a pause speaks exactly the entry it moves past, if any. */
  lemma TickSpeaks(s: BarnesState, diff: uint32, live: set<Guid>)
    requires s.Valid() && s.paused
    ensures var t := Update(s, diff, live);
      s.talkCount <= t.state.talkCount <= 4
      && Spoken(t.effects) == Lines(s.eventId, s.talkCount, t.state.talkCount)
  {
    var t := Update(s, diff, live);
    if t.state.talkCount == s.talkCount + 1 {
      assert Lines(s.eventId, s.talkCount, t.state.talkCount) == Said(TalkLine(s.eventId, s.talkCount, 0).line);
    }
  }

  /** The lines a pause speaks are the table's entries from the current `TalkCount` on, in order. */
  lemma {:induction false} PauseSpeaks(s: BarnesState, ticks: seq<TickInput>)
    requires s.Valid() && s.paused
    ensures s.talkCount <= Run(s, ticks).state.talkCount <= 4
    ensures Spoken(Run(s, ticks).effects) == Lines(s.eventId, s.talkCount, Run(s, ticks).state.talkCount)
    decreases |ticks|
  {
    if ticks != [] {
      var t := Update(s, ticks[0].diff, ticks[0].live);
      var rest := Run(t.state, ticks[1..]);
      TickSpeaks(s, ticks[0].diff, ticks[0].live);
      SpokenConcat(t.effects, rest.effects);
      if t.state.paused {
        PauseSpeaks(t.state, ticks[1..]);
        LinesAppend(s.eventId, s.talkCount, t.state.talkCount, rest.state.talkCount);
      } else {
        RunWhileWalking(t.state, ticks[1..]);
        assert Spoken(rest.effects) == [];
      }
    }
  }

  /**
   * Whatever the tick sizes, a pause speaks the selected opera's lines in table
   * order, never more than the four entries, and ends only after all four entries
   * were talked, one tick each, plus the closing tick.
   */
  lemma PauseSpeaksTheScript(s: BarnesState, ticks: seq<TickInput>)
    requires s.Valid() && s.paused
    ensures var r := Run(s, ticks);
      r.state.eventId == s.eventId
      && s.talkCount <= r.state.talkCount <= 4
      && Spoken(r.effects) == Lines(s.eventId, s.talkCount, r.state.talkCount)
      && (!r.state.paused ==> r.state.talkCount == 4 && |ticks| >= 5 - s.talkCount)
  {
    PauseCounts(s, ticks);
    PauseSpeaks(s, ticks);
  }

  /**
   * Every expiry moves the pause on: fed one tick per remaining entry plus the
   * closing tick, each at least as long as the longest table wait, a pause ends
   * with all four entries talked.
   */
  lemma {:induction false} PauseEnds(s: BarnesState, ticks: seq<TickInput>)
    requires s.Valid() && s.paused && s.talkTimer <= 18000
    requires |ticks| == 5 - s.talkCount
    requires forall i :: 0 <= i < |ticks| ==> 18000 <= ticks[i].diff
    ensures !Run(s, ticks).state.paused && Run(s, ticks).state.talkCount == 4
    decreases |ticks|
  {
    var t := Update(s, ticks[0].diff, ticks[0].live);
    if s.talkCount == 4 {
      RunWhileWalking(t.state, ticks[1..]);
    } else {
      PauseEnds(t.state, ticks[1..]);
    }
  }

  /** A full pause begun at waypoint 4 speaks exactly the four entries of the selected table. */
  lemma FullPauseSpeaksFourEntries(s: BarnesState, ticks: seq<TickInput>)
    requires s.Valid() && s.paused && s.talkCount == 0
    requires !Run(s, ticks).state.paused
    ensures Spoken(Run(s, ticks).effects) == Lines(s.eventId, 0, 4)
    ensures |ticks| >= 5
  {
    PauseSpeaksTheScript(s, ticks);
  }

  // ---------------------------------------------------------------------------
  // The creature script

  class BarnesAI {
    const instance: Instance
    var spotlight: Option<Guid>
    var talkCount: uint32
    var talkTimer: uint32
    var eventId: uint32
    var performanceReady: bool
    /** The escort's paused state, which the escort base class keeps for Barnes. */
    var paused: bool
    var log: seq<Effect>

    function State(): BarnesState
      reads this
    {
      BarnesState(spotlight, talkCount, talkTimer, eventId, performanceReady, paused)
    }

    predicate Valid()
      reads this
    {
      State().Valid()
    }

    constructor (instance: Instance)
      ensures this.instance == instance
      ensures State() == BarnesState(None, 0, 0, 0, false, false) && log == []
    {
      this.instance := instance;
      spotlight := None;
      talkCount := 0;
      talkTimer := 0;
      eventId := 0;
      performanceReady := false;
      paused := false;
      log := [];
    }

    /** Clears the spotlight handle, rewinds the dialogue and re-reads the selected opera. */
    method Reset()
      modifies this
      ensures Valid()
      ensures State() == old(State()).(spotlight := None, talkCount := 0, talkTimer := 2000,
                                       performanceReady := false, eventId := instance.Data(OperaEvent))
      ensures log == old(log)
    {
      spotlight := None;
      talkCount := 0;
      talkTimer := 2000;
      performanceReady := false;
      eventId := instance.Data(OperaEvent);
    }

    /** Marks the opera in progress, rearms the Oz death counter for Oz, and starts walking. */
    method StartEvent()
      modifies this, instance
      ensures instance.bossStates == old(instance.bossStates)[OperaPerformance := InProgress]
      ensures instance.data ==
        if eventId == EVENT_OZ then old(instance.data)[OperaOzDeathCount := StateCode(InProgress)]
        else old(instance.data)
      ensures instance.guids == old(instance.guids)
      ensures State() == old(State()) && log == old(log) + [StartEscort]
    {
      instance.SetBossState(OperaPerformance, InProgress);
      if eventId == EVENT_OZ {
        instance.SetData(OperaOzDeathCount, StateCode(InProgress));
      }
      log := log + [StartEscort];
    }

    /**
     * Side effects on reaching a waypoint. `summoned` is the spotlight the host
     * returns at waypoint 4, or `None` when that summon fails.
     */
    method WaypointReached(waypointId: uint32, summoned: Option<Guid>)
      requires Valid()
      modifies this, instance
      ensures Valid()
      ensures eventId == old(eventId) && talkTimer == old(talkTimer)
      ensures instance.bossStates == old(instance.bossStates) && instance.guids == old(instance.guids)
      ensures waypointId == 0 ==> log == old(log) + [Cast(Self, Self, SPELL_TUXEDO), OpenDoor(StageDoorLeft)]
      ensures waypointId == 4 ==>
        talkCount == 0 && paused
        && spotlight == (if summoned.Some? then summoned else old(spotlight))
        && log == old(log) + [Summon(NPC_SPOTLIGHT)]
                 + (if summoned.Some? then [Cast(Spotlight, Spotlight, SPELL_SPOTLIGHT)] else [])
      ensures waypointId == 8 ==>
        performanceReady
        && log == old(log) + (if eventId != EVENT_HOOD then [UseDoor(StageDoorLeft)] else [])
      ensures waypointId == 9 ==>
        log == old(log) + Decorations(eventId) + [UseDoor(Curtains)]
        && instance.data == old(instance.data)[SpawnOperaDecorations := eventId]
      ensures waypointId != 4 ==>
        talkCount == old(talkCount) && paused == old(paused) && spotlight == old(spotlight)
      ensures waypointId != 8 ==> performanceReady == old(performanceReady)
      ensures waypointId != 9 ==> instance.data == old(instance.data)
      ensures waypointId != 0 && waypointId != 4 && waypointId != 8 && waypointId != 9 ==> log == old(log)
    {
      if waypointId == 0 {
        log := log + [Cast(Self, Self, SPELL_TUXEDO), OpenDoor(StageDoorLeft)];
      } else if waypointId == 4 {
        talkCount := 0;
        paused := true;
        log := log + [Summon(NPC_SPOTLIGHT)];
        if summoned.Some? {
          log := log + [Cast(Spotlight, Spotlight, SPELL_SPOTLIGHT)];
          spotlight := summoned;
        }
      } else if waypointId == 8 {
        if eventId != EVENT_HOOD {
          log := log + [UseDoor(StageDoorLeft)];
        }
        performanceReady := true;
      } else if waypointId == 9 {
        PrepareEncounter();
        log := log + [UseDoor(Curtains)];
      }
    }

    /** Speaks entry `count` of the selected opera's table and takes its wait. */
    method Talk(count: uint32)
      requires count < 4
      modifies this
      ensures talkTimer == TalkLine(eventId, count, old(talkTimer)).talkTimer
      ensures log == old(log) + Said(TalkLine(eventId, count, old(talkTimer)).line)
      ensures State() == old(State()).(talkTimer := talkTimer)
    {
      var text: int := 0;
      if eventId == EVENT_OZ {
        if OzDialogue[count].textId != 0 { text := OzDialogue[count].textId; }
        if OzDialogue[count].timer != 0 { talkTimer := OzDialogue[count].timer; }
      } else if eventId == EVENT_HOOD {
        if HoodDialogue[count].textId != 0 { text := HoodDialogue[count].textId; }
        if HoodDialogue[count].timer != 0 { talkTimer := HoodDialogue[count].timer; }
      } else if eventId == EVENT_RAJ {
        if RAJDialogue[count].textId != 0 { text := RAJDialogue[count].textId; }
        if RAJDialogue[count].timer != 0 { talkTimer := RAJDialogue[count].timer; }
      }
      if text != 0 {
        log := log + [Say(Self, text)];
      }
    }

    /** Summons the selected opera's cast and records the event id as the decorations marker. */
    method PrepareEncounter()
      modifies this, instance
      ensures log == old(log) + Decorations(eventId)
      ensures instance.data == old(instance.data)[SpawnOperaDecorations := eventId]
      ensures instance.bossStates == old(instance.bossStates) && instance.guids == old(instance.guids)
      ensures State() == old(State())
    {
      var index: uint8 := 0;
      var count: uint8 := 0;
      if eventId == EVENT_OZ {
        index := 0;
        count := 4;
      } else if eventId == EVENT_HOOD {
        index := 4;
        count := index + 1;
      } else if eventId == EVENT_RAJ {
        index := 5;
        count := index + 1;
      }
      ghost var first := index;
      while index < count
        invariant first <= index <= count <= |SpawnEntries|
        invariant (first as nat, count as nat) == SpawnRows(eventId)
        invariant log == old(log) + Summons(first, index)
        invariant State() == old(State())
        invariant unchanged(instance)
      {
        log := log + [Summon(SpawnEntries[index])];
        index := index + 1;
      }
      instance.SetData(SpawnOperaDecorations, eventId);
    }

    /** One tick while the escort is paused: a countdown, one line, or the end of the pause. */
    method UpdateAI(diff: uint32, live: set<Guid>)
      requires Valid()
      modifies this
      ensures Valid()
      ensures State() == Update(old(State()), diff, live).state
      ensures log == old(log) + Update(old(State()), diff, live).effects
    {
      if paused {
        if talkTimer <= diff {
          if talkCount > 3 {
            if Resolves(spotlight, live) {
              log := log + [Despawn(Spotlight, 0)];
            }
            paused := false;
            return;
          }
          Talk(talkCount);
          talkCount := talkCount + 1;
        } else {
          talkTimer := talkTimer - diff;
        }
      }
    }
  }

  // ---------------------------------------------------------------------------
  // Gossip

  const GOSSIP_ACTION_INFO_DEF: uint32 := 1000
  const ACTION_BEGIN: uint32 := GOSSIP_ACTION_INFO_DEF + 1
  const ACTION_START: uint32 := GOSSIP_ACTION_INFO_DEF + 2
  const ACTION_GM_OZ: uint32 := GOSSIP_ACTION_INFO_DEF + 3
  const ACTION_GM_HOOD: uint32 := GOSSIP_ACTION_INFO_DEF + 4
  const ACTION_GM_RAJ: uint32 := GOSSIP_ACTION_INFO_DEF + 5

  const BARNES_TEXT_NOT_READY: nat := 8969
  const BARNES_TEXT_IS_READY: nat := 8970
  const BARNES_TEXT_IS_READY2: nat := 8971
  const BARNES_TEXT_WIPED: nat := 8975

  datatype Label = MenuOption(menuId: nat, optionId: nat) | GmOption(text: string)
  datatype GossipItem = GossipItem(caption: Label, action: uint32)
  /** A menu sent to the player, a closed menu, or a cleared menu with nothing sent. */
  datatype GossipReply = Menu(items: seq<GossipItem>, textId: nat) | Closed | Cleared

  predicate Offers(reply: GossipReply, action: uint32)
  {
    reply.Menu? && exists i :: 0 <= i < |reply.items| && reply.items[i].action == action
  }

  /** Moroes is dead and the opera is not yet done. */
  predicate OperaOpen(hasInstance: bool, moroes: EncounterState, opera: EncounterState)
  {
    hasInstance && moroes == Done && opera != Done
  }

  /**
   * The menu Barnes shows. The first confirmation step is offered exactly when
   * the opera is open, the event switches exactly when it is open to a game
   * master; the wiped text shows exactly after a failed attempt and the
   * not-ready text exactly when the opera is not open.
   */
  function OnGossipHello(hasInstance: bool, moroes: EncounterState, opera: EncounterState,
                         isGameMaster: bool): (reply: GossipReply)
    ensures reply.Menu?
    ensures Offers(reply, ACTION_BEGIN) <==> OperaOpen(hasInstance, moroes, opera)
    ensures !Offers(reply, ACTION_START)
    ensures Offers(reply, ACTION_GM_OZ) <==> OperaOpen(hasInstance, moroes, opera) && isGameMaster
    ensures Offers(reply, ACTION_GM_HOOD) <==> OperaOpen(hasInstance, moroes, opera) && isGameMaster
    ensures Offers(reply, ACTION_GM_RAJ) <==> OperaOpen(hasInstance, moroes, opera) && isGameMaster
    ensures reply.textId == BARNES_TEXT_NOT_READY <==> !OperaOpen(hasInstance, moroes, opera)
    ensures reply.textId == BARNES_TEXT_WIPED <==> OperaOpen(hasInstance, moroes, opera) && opera == Fail
    ensures reply.textId == BARNES_TEXT_IS_READY <==> OperaOpen(hasInstance, moroes, opera) && opera != Fail
  {
    if OperaOpen(hasInstance, moroes, opera) then
      var begin := [GossipItem(MenuOption(7421, 0), ACTION_BEGIN)];
      var gm := if isGameMaster then
                  [GossipItem(GmOption("[GM] Change event to EVENT_OZ"), ACTION_GM_OZ),
                   GossipItem(GmOption("[GM] Change event to EVENT_HOOD"), ACTION_GM_HOOD),
                   GossipItem(GmOption("[GM] Change event to EVENT_RAJ"), ACTION_GM_RAJ)]
                else [];
      var reply := Menu(begin + gm, if opera != Fail then BARNES_TEXT_IS_READY else BARNES_TEXT_WIPED);
      assert reply.items[0].action == ACTION_BEGIN;
      assert isGameMaster ==> reply.items[1].action == ACTION_GM_OZ;
      assert isGameMaster ==> reply.items[2].action == ACTION_GM_HOOD;
      assert isGameMaster ==> reply.items[3].action == ACTION_GM_RAJ;
      reply
    else
      Menu([], BARNES_TEXT_NOT_READY)
  }

  /**
   * Handles a chosen menu entry: the first step offers the confirmation, the
   * confirmation starts the event, and the three switches replace the selected
   * opera. Nothing checks that the escort is walking: a switch during the paused
   * dialogue changes the table the remaining lines are read from.
   */
  method OnGossipSelect(ai: BarnesAI, action: uint32) returns (reply: GossipReply)
    modifies ai, ai.instance
    ensures Offers(reply, ACTION_START) <==> action == ACTION_BEGIN
    ensures action == ACTION_BEGIN ==>
      reply == Menu([GossipItem(MenuOption(7422, 0), ACTION_START)], BARNES_TEXT_IS_READY2)
    ensures action == ACTION_START ==>
      reply == Closed
      && ai.instance.bossStates == old(ai.instance.bossStates)[OperaPerformance := InProgress]
      && ai.log == old(ai.log) + [StartEscort]
      && ai.instance.data ==
           (if ai.eventId == EVENT_OZ then old(ai.instance.data)[OperaOzDeathCount := StateCode(InProgress)]
            else old(ai.instance.data))
      && ai.State() == old(ai.State())
    ensures action != ACTION_START ==>
      ai.instance.bossStates == old(ai.instance.bossStates)
      && ai.instance.data == old(ai.instance.data)
      && ai.log == old(ai.log)
    ensures ai.instance.guids == old(ai.instance.guids)
    ensures action == ACTION_GM_OZ ==> reply == Closed && ai.State() == old(ai.State()).(eventId := EVENT_OZ)
    ensures action == ACTION_GM_HOOD ==> reply == Closed && ai.State() == old(ai.State()).(eventId := EVENT_HOOD)
    ensures action == ACTION_GM_RAJ ==> reply == Closed && ai.State() == old(ai.State()).(eventId := EVENT_RAJ)
    ensures action < ACTION_GM_OZ || ACTION_GM_RAJ < action ==> ai.State() == old(ai.State())
    ensures action < ACTION_BEGIN || ACTION_GM_RAJ < action ==> reply == Cleared
  {
    reply := Cleared;
    if action == ACTION_BEGIN {
      reply := Menu([GossipItem(MenuOption(7422, 0), ACTION_START)], BARNES_TEXT_IS_READY2);
      assert reply.items[0].action == ACTION_START;
    } else if action == ACTION_START {
      reply := Closed;
      ai.StartEvent();
    } else if action == ACTION_GM_OZ {
      reply := Closed;
      ai.eventId := EVENT_OZ;
    } else if action == ACTION_GM_HOOD {
      reply := Closed;
      ai.eventId := EVENT_HOOD;
    } else if action == ACTION_GM_RAJ {
      reply := Closed;
      ai.eventId := EVENT_RAJ;
    }
  }
}

=== FILE: host.dfy ===
/**
 * What the Karazhan scripts see of their host: the C++ integer widths they use,
 * the instance's progress tracker, and the effects they ask the host to perform.
 * Effects (talk, cast, summon, doors, despawn) are not executed; each script
 * appends them to its own log so that contracts can say which were requested.
 */
module KarazhanHost {

  type uint8 = x: int | 0 <= x < 0x100
  type uint32 = x: int | 0 <= x < 0x1_0000_0000
  type int32 = x: int | -0x8000_0000 <= x < 0x8000_0000

  datatype Option<T> = None | Some(value: T)

  /** A nonzero object handle. The empty handle is `None` of `Option<Guid>`. */
  type Guid = x: nat | x > 0 witness 1

  /** True when a held handle still names a creature the host can look up. */
  predicate Resolves(handle: Option<Guid>, live: set<Guid>)
  {
    handle.Some? && handle.value in live
  }

  /** `int32 += uint32` as C++ does it: add modulo 2^32, read back as two's complement. */
  function AddInt32(a: int32, d: uint32): (r: int32)
    ensures -0x8000_0000 <= a + d < 0x8000_0000 ==> r == a + d
    ensures 0x8000_0000 <= a + d ==> r == a + d - 0x1_0000_0000
  {
    var u := (a + d) % 0x1_0000_0000;
    if u < 0x8000_0000 then u else u - 0x1_0000_0000
  }

  /** The host's encounter states, in the order of their numeric codes. */
  datatype EncounterState = NotStarted | InProgress | Fail | Done | Special | ToBeDecided

  function StateCode(s: EncounterState): uint32
  {
    match s
    case NotStarted => 0
    case InProgress => 1
    case Fail => 2
    case Done => 3
    case Special => 4
    case ToBeDecided => 5
  }

  /** Boss-state slots of the Karazhan instance that these scripts use. */
  datatype Boss = Moroes | OperaPerformance

  /**
   * Data slots: the selected opera (the slot `Reset` reads as `DATA_OPERA_PERFORMANCE`,
   * distinct from the opera's boss state), the Oz death counter, the decoration marker.
   */
  datatype DataKey = OperaEvent | OperaOzDeathCount | SpawnOperaDecorations

  /** Handle slots: the registered Image of Medivh. */
  datatype GuidKey = ImageOfMedivh

  datatype Door = StageDoorLeft | Curtains

  /** The creatures an effect can name: the script's own creature and the ones it summoned. */
  datatype Actor = Self | Spotlight | Arcanagos

  /** True when effect `e` needs creature `a` to exist: it speaks, casts, is hit, or moves. */
  predicate Mentions(e: Effect, a: Actor)
  {
    match e
    case Say(speaker, _) => speaker == a
    case TextEmote(speaker, _) => speaker == a
    case Cast(caster, target, _) => caster == a || target == a
    case RemoveAura(target, _) => target == a
    case Despawn(who, _) => who == a
    case FlyAway(who) => who == a
    case _ => false
  }

  datatype Effect =
    | Say(speaker: Actor, text: int)
    | TextEmote(speaker: Actor, text: int)
    | Cast(caster: Actor, target: Actor, spell: nat)
    | RemoveAura(target: Actor, spell: nat)
    | Summon(entry: nat)
    | Despawn(who: Actor, delayMs: nat)
    | OpenDoor(door: Door)
    | UseDoor(door: Door)
    | StartEscort
    | FlyAway(who: Actor)

  /**
   * The instance's shared progress tracker, reduced to the slots the scripts
   * read and write. A slot never written reads as the host's default.
   */
  class Instance {
    var bossStates: map<Boss, EncounterState>
    var data: map<DataKey, uint32>
    var guids: map<GuidKey, Guid>

    constructor ()
      ensures bossStates == map[] && data == map[] && guids == map[]
    {
      bossStates := map[];
      data := map[];
      guids := map[];
    }

    function BossState(b: Boss): EncounterState
      reads this
    {
      if b in bossStates then bossStates[b] else NotStarted
    }

    function Data(k: DataKey): uint32
      reads this
    {
      if k in data then data[k] else 0
    }

    method SetBossState(b: Boss, s: EncounterState)
      modifies this
      ensures bossStates == old(bossStates)[b := s]
      ensures data == old(data) && guids == old(guids)
    {
      bossStates := bossStates[b := s];
    }

    method SetData(k: DataKey, v: uint32)
      modifies this
      ensures data == old(data)[k := v]
      ensures bossStates == old(bossStates) && guids == old(guids)
    {
      data := data[k := v];
    }

    method SetGuidData(k: GuidKey, g: Guid)
      modifies this
      ensures guids == old(guids)[k := g]
      ensures bossStates == old(bossStates) && data == old(data)
    {
      guids := guids[k := g];
    }
  }
}

=== FILE: medivh.dfy ===
/**
 * The Image of Medivh: a one-shot scripted duel with the dragon Arcanagos.
 *
 * `Reset` summons Arcanagos and registers this image with the instance, unless
 * an image is already registered. `UpdateAI` then fires the numbered steps of
 * `NextStep` one by one, each time `yellTimer` runs out, and takes the wait
 * the step returns. While the step counter is 7 or 8 the two duellists also
 * trade fireballs on their own countdowns.
 */
module ImageOfMedivh {
  import opened KarazhanHost

  const NPC_ARCANAGOS: nat := 17652
  const SPELL_FIRE_BALL: nat := 30967
  const SPELL_CONFLAGRATION_BLAST: nat := 30977
  const SPELL_MANA_SHIELD: nat := 31635
  /** The aura Medivh casts on himself at step 9 and removes at step 10 (unnamed in the script). */
  const SPELL_STEP_NINE_AURA: nat := 30972

  /** Talk group ids of the duel's lines, one numbering per speaker. */
  const SAY_DIALOG_MEDIVH_1: int := 0
  const SAY_DIALOG_ARCANAGOS_2: int := 0
  const SAY_DIALOG_MEDIVH_3: int := 1
  const SAY_DIALOG_ARCANAGOS_4: int := 1
  const SAY_DIALOG_MEDIVH_5: int := 2
  const SAY_DIALOG_ARCANAGOS_6: int := 2
  const EMOTE_DIALOG_MEDIVH_7: int := 3
  const SAY_DIALOG_ARCANAGOS_8: int := 3
  const SAY_DIALOG_MEDIVH_9: int := 4

  /** `Step++` on the uint8 counter: one more, wrapping from 255 to 0. */
  function Next(n: uint8): (r: uint8)
    ensures r == (n + 1) % 256
  {
    if n == 255 then 0 else n + 1
  }

  /** The exchange countdowns run while the step counter is in this range. */
  predicate InExchange(step: uint8)
  {
    7 <= step <= 8
  }

  // ---------------------------------------------------------------------------
  // The duel timeline

  /**
   * The wait `NextStep(n)` returns. The fourteen steps wait between one and
   * twenty seconds; any other number waits two seconds and does nothing.
   */
  function StepWait(n: uint32): (w: uint32)
    ensures 1 <= n <= 14 ==> 1000 <= w <= 20000
    ensures !(1 <= n <= 14) ==> w == 2000
  {
    match n
    case 1 => 10000
    case 2 => 20000
    case 3 => 10000
    case 4 => 20000
    case 5 => 20000
    case 6 => 10000
    case 7 => 1000
    case 8 => 5500
    case 9 => 10000
    case 10 => 1000
    case 11 => 5000
    case 12 => 10000
    case 13 => 10000
    case 14 => 5000
    case _ => 2000
  }

  /**
   * The effects of step `n`; `arca` says whether Arcanagos resolves. An action
   * that needs Arcanagos is skipped when he does not. No step throws a fireball,
   * and only steps 1..14 do anything.
   */
  function StepEffects(n: uint32, arca: bool): (es: seq<Effect>)
    ensures |es| <= 2
    ensures forall e :: e in es ==> !(e.Cast? && e.spell == SPELL_FIRE_BALL)
    ensures !(1 <= n <= 14) ==> es == []
    ensures !arca ==> forall e :: e in es ==> !Mentions(e, Arcanagos)
  {
    match n
    case 1 => [Say(Self, SAY_DIALOG_MEDIVH_1)]
    case 2 => if arca then [Say(Arcanagos, SAY_DIALOG_ARCANAGOS_2)] else []
    case 3 => [Say(Self, SAY_DIALOG_MEDIVH_3)]
    case 4 => if arca then [Say(Arcanagos, SAY_DIALOG_ARCANAGOS_4)] else []
    case 5 => [Say(Self, SAY_DIALOG_MEDIVH_5)]
    case 6 => if arca then [Say(Arcanagos, SAY_DIALOG_ARCANAGOS_6)] else []
    case 7 => []
    case 8 => [Cast(Self, Self, SPELL_MANA_SHIELD)]
    case 9 => [TextEmote(Self, EMOTE_DIALOG_MEDIVH_7), Cast(Self, Self, SPELL_STEP_NINE_AURA)]
    case 10 =>
      [RemoveAura(Self, SPELL_STEP_NINE_AURA)]
      + (if arca then [Cast(Self, Arcanagos, SPELL_CONFLAGRATION_BLAST)] else [])
    case 11 => if arca then [Say(Arcanagos, SAY_DIALOG_ARCANAGOS_8)] else []
    case 12 => if arca then [FlyAway(Arcanagos)] else []
    case 13 => [Say(Self, SAY_DIALOG_MEDIVH_9)]
    case 14 => [Despawn(Self, 100)] + (if arca then [Despawn(Arcanagos, 100)] else [])
    case _ => []
  }

  // ---------------------------------------------------------------------------
  // One tick

  datatype MedivhState = MedivhState(
    arcanagos: Option<Guid>,
    yellTimer: uint32,
    step: uint8,
    aTimer: int32,
    mTimer: int32,
    eventStarted: bool)

  /** The state right after construction: step 1, a five-second first wait, not started. */
  function Initial(): MedivhState
  {
    MedivhState(None, 5000, 1, 0, 0, false)
  }

  /** A tick's new state, its effects, and the step it fired, if any. */
  datatype Ticked = Ticked(state: MedivhState, effects: seq<Effect>, fired: Option<uint8>)

  /** The first half of `UpdateAI`: the step countdown. */
  function Yell(s: MedivhState, diff: uint32, live: set<Guid>): Ticked
  {
    if s.yellTimer <= diff then
      if s.eventStarted then
        var n := s.step;
        var armed := if n == 6 then s.(aTimer := 5500, mTimer := 6600) else s;
        Ticked(armed.(step := Next(n), yellTimer := StepWait(n)),
               StepEffects(n, Resolves(s.arcanagos, live)), Some(n))
      else
        Ticked(s, [], None)
    else
      Ticked(s.(yellTimer := s.yellTimer - diff), [], None)
  }

  /**
   * The second half of `UpdateAI`: inside the exchange window both countdowns
   * grow by `diff`; each that reaches 6000 throws its fireball if Arcanagos
   * resolves and goes back to 0 either way. Outside the window nothing changes.
   */
  function Exchange(s: MedivhState, diff: uint32, live: set<Guid>): (r: Ticked)
    ensures r.fired == None
    ensures r.state.step == s.step && r.state.yellTimer == s.yellTimer
    ensures r.state.eventStarted == s.eventStarted && r.state.arcanagos == s.arcanagos
    ensures !InExchange(s.step) ==> r.state == s && r.effects == []
    ensures |r.effects| <= 2
    // Only the two sides' own fireballs are ever thrown.
    ensures forall e :: e in r.effects ==>
      e == Cast(Arcanagos, Self, SPELL_FIRE_BALL) || e == Cast(Self, Arcanagos, SPELL_FIRE_BALL)
    // Each side throws at most once per tick: two effects are the two different fireballs.
    ensures |r.effects| == 2 ==>
      r.effects == [Cast(Arcanagos, Self, SPELL_FIRE_BALL), Cast(Self, Arcanagos, SPELL_FIRE_BALL)]
    ensures InExchange(s.step) ==> r.state.aTimer < 6000 && r.state.mTimer < 6000
    ensures InExchange(s.step) && s.aTimer + diff < 6000 ==>
      r.state.aTimer == s.aTimer + diff && Cast(Arcanagos, Self, SPELL_FIRE_BALL) !in r.effects
    ensures InExchange(s.step) && 6000 <= s.aTimer + diff < 0x8000_0000 ==>
      r.state.aTimer == 0
      && (Cast(Arcanagos, Self, SPELL_FIRE_BALL) in r.effects <==> Resolves(s.arcanagos, live))
    ensures InExchange(s.step) && s.mTimer + diff < 6000 ==>
      r.state.mTimer == s.mTimer + diff && Cast(Self, Arcanagos, SPELL_FIRE_BALL) !in r.effects
    ensures InExchange(s.step) && 6000 <= s.mTimer + diff < 0x8000_0000 ==>
      r.state.mTimer == 0
      && (Cast(Self, Arcanagos, SPELL_FIRE_BALL) in r.effects <==> Resolves(s.arcanagos, live))
    // A sum past the int32 range wraps to a negative count or, from a large count, to one
    // that may again reach the threshold.
    ensures InExchange(s.step) && 0x8000_0000 <= s.aTimer + diff ==>
      var a := s.aTimer + diff - 0x1_0000_0000;
      (a < 6000 ==> r.state.aTimer == a && Cast(Arcanagos, Self, SPELL_FIRE_BALL) !in r.effects)
      && (6000 <= a ==> r.state.aTimer == 0
                        && (Cast(Arcanagos, Self, SPELL_FIRE_BALL) in r.effects <==> Resolves(s.arcanagos, live)))
    ensures InExchange(s.step) && 0x8000_0000 <= s.mTimer + diff ==>
      var m := s.mTimer + diff - 0x1_0000_0000;
      (m < 6000 ==> r.state.mTimer == m && Cast(Self, Arcanagos, SPELL_FIRE_BALL) !in r.effects)
      && (6000 <= m ==> r.state.mTimer == 0
                        && (Cast(Self, Arcanagos, SPELL_FIRE_BALL) in r.effects <==> Resolves(s.arcanagos, live)))
  {
    if InExchange(s.step) then
      var a := AddInt32(s.aTimer, diff);
      var m := AddInt32(s.mTimer, diff);
      var arca := Resolves(s.arcanagos, live);
      var fromArcanagos := if a >= 6000 && arca then [Cast(Arcanagos, Self, SPELL_FIRE_BALL)] else [];
      var fromMedivh := if m >= 6000 && arca then [Cast(Self, Arcanagos, SPELL_FIRE_BALL)] else [];
      Ticked(s.(aTimer := if a >= 6000 then 0 else a, mTimer := if m >= 6000 then 0 else m),
             fromArcanagos + fromMedivh, None)
    else
      Ticked(s, [], None)
  }

  /** An exchange logs each side's fireball at most once. */
  lemma ExchangeThrowsOncePerSide(s: MedivhState, diff: uint32, live: set<Guid>)
    ensures multiset(Exchange(s, diff, live).effects)[Cast(Arcanagos, Self, SPELL_FIRE_BALL)] <= 1
    ensures multiset(Exchange(s, diff, live).effects)[Cast(Self, Arcanagos, SPELL_FIRE_BALL)] <= 1
  {
    var es := Exchange(s, diff, live).effects;
    if |es| == 2 {
      assert es == [es[0]] + [es[1]];
    } else if |es| == 1 {
      assert es == [es[0]];
    }
  }

  /**
   * `UpdateAI(diff)`. A step fires exactly when the countdown has run out and
   * the event was started; it is the current step, the counter moves on by one
   * (modulo 256), and the wait becomes that step's wait, the overshoot dropped.
   * The fireball countdowns change only while the counter is 7 or 8 after the
   * tick, and are then below the 6000 threshold.
   */
  function Update(s: MedivhState, diff: uint32, live: set<Guid>): (r: Ticked)
    ensures r.fired.Some? <==> s.eventStarted && s.yellTimer <= diff
    ensures r.fired.Some? ==>
      r.fired.value == s.step && r.state.step == Next(s.step) && r.state.yellTimer == StepWait(s.step)
    ensures r.fired.None? ==> r.state.step == s.step
    ensures diff < s.yellTimer ==> r.state.yellTimer == s.yellTimer - diff
    ensures !s.eventStarted && s.yellTimer <= diff ==> r.state.yellTimer == s.yellTimer
    ensures r.state.eventStarted == s.eventStarted && r.state.arcanagos == s.arcanagos
    ensures !InExchange(r.state.step) ==> r.state.aTimer == s.aTimer && r.state.mTimer == s.mTimer
    ensures InExchange(r.state.step) ==> r.state.aTimer < 6000 && r.state.mTimer < 6000
  {
    var y := Yell(s, diff, live);
    var x := Exchange(y.state, diff, live);
    Ticked(x.state, y.effects + x.effects, y.fired)
  }

  /**
   * What a tick does. A fired step performs its actions first and anything
   * after them is a fireball of the exchange; a tick that fires no step can only
   * throw fireballs, and fireballs fly only while the counter is 7 or 8. Step 6
   * arms Arcanagos at 5500 and Medivh at 6600 before the same tick's exchange,
   * so Medivh's first fireball goes off on that very tick.
   */
  lemma UpdatePerformsStep(s: MedivhState, diff: uint32, live: set<Guid>)
    ensures var r := Update(s, diff, live);
      (forall e :: e in r.effects && e.Cast? && e.spell == SPELL_FIRE_BALL ==> InExchange(r.state.step))
      && (r.fired.Some? ==>
            var acts := StepEffects(s.step, Resolves(s.arcanagos, live));
            |acts| <= |r.effects| && r.effects[..|acts|] == acts
            && forall e :: e in r.effects[|acts|..] ==>
                 e == Cast(Arcanagos, Self, SPELL_FIRE_BALL) || e == Cast(Self, Arcanagos, SPELL_FIRE_BALL))
      && (r.fired.None? ==> forall e :: e in r.effects ==>
            e == Cast(Arcanagos, Self, SPELL_FIRE_BALL) || e == Cast(Self, Arcanagos, SPELL_FIRE_BALL))
    ensures var r := Update(s, diff, live);
      (r.fired == Some(6) && diff < 500 ==> r.state.aTimer == 5500 + diff)
      && (r.fired == Some(6) && 500 <= diff < 0x8000_0000 - 5500 ==>
            r.state.aTimer == 0 && (Cast(Arcanagos, Self, SPELL_FIRE_BALL) in r.effects <==> Resolves(s.arcanagos, live)))
      && (r.fired == Some(6) && diff < 0x8000_0000 - 6600 ==>
            r.state.mTimer == 0 && (Cast(Self, Arcanagos, SPELL_FIRE_BALL) in r.effects <==> Resolves(s.arcanagos, live)))
  {
    var y := Yell(s, diff, live);
    var x := Exchange(y.state, diff, live);
    assert Update(s, diff, live).effects == y.effects + x.effects;
    if y.fired.Some? {
      assert y.effects == StepEffects(s.step, Resolves(s.arcanagos, live));
      assert (y.effects + x.effects)[|y.effects|..] == x.effects;
    }
  }

  // ---------------------------------------------------------------------------
  // Many ticks

  datatype TickInput = TickInput(diff: uint32, live: set<Guid>)

  /** A run of ticks: final state, effects in order, and the steps fired in order. */
  datatype Trace = Trace(state: MedivhState, effects: seq<Effect>, fired: seq<uint8>)

  function Run(s: MedivhState, ticks: seq<TickInput>): Trace
    decreases |ticks|
  {
    if ticks == [] then Trace(s, [], [])
    else
      var t := Update(s, ticks[0].diff, ticks[0].live);
      var rest := Run(t.state, ticks[1..]);
      Trace(rest.state, t.effects + rest.effects,
            (if t.fired.Some? then [t.fired.value] else []) + rest.fired)
  }

  /** The `k` step numbers a uint8 counter passes through from `from`. */
  function Consecutive(from: uint8, k: nat): seq<uint8>
    decreases k
  {
    if k == 0 then [] else [from] + Consecutive(Next(from), k - 1)
  }

  lemma {:induction false} ConsecutiveAt(from: uint8, k: nat, i: nat)
    requires i < k
    ensures |Consecutive(from, k)| == k && Consecutive(from, k)[i] == Advance(from, i)
    decreases k
  {
    if i == 0 {
      ConsecutiveLength(Next(from), k - 1);
    } else {
      ConsecutiveAt(Next(from), k - 1, i - 1);
    }
  }

  lemma {:induction false} ConsecutiveLength(from: uint8, k: nat)
    ensures |Consecutive(from, k)| == k
    decreases k
  {
    if k > 0 {
      ConsecutiveLength(Next(from), k - 1);
    }
  }

  lemma ModShift(a: uint8, k: nat)
    ensures ((a + 1) % 256 + k) % 256 == (a + 1 + k) % 256
  {
  }

  /** The counter after `k` increments of a uint8 step counter. */
  function Advance(from: uint8, k: nat): uint8
    decreases k
  {
    if k == 0 then from else Advance(Next(from), k - 1)
  }

  lemma {:induction false} AdvanceWraps(from: uint8, k: nat)
    ensures Advance(from, k) == (from + k) % 256
    decreases k
  {
    if k > 0 {
      AdvanceWraps(Next(from), k - 1);
      ModShift(from, k - 1);
    }
  }

  /**
   * Over a run the fired steps are consecutive from the current one, and the
   * counter ends as many increments further on; the event flag never changes.
   */
  lemma {:induction false} CounterFollowsFires(s: MedivhState, ticks: seq<TickInput>)
    ensures var r := Run(s, ticks);
      r.fired == Consecutive(s.step, |r.fired|)
      && r.state.step == Advance(s.step, |r.fired|)
      && r.state.eventStarted == s.eventStarted
      && |r.fired| <= |ticks|
      && (!s.eventStarted ==> r.fired == [])
    decreases |ticks|
  {
    if ticks != [] {
      var t := Update(s, ticks[0].diff, ticks[0].live);
      var rest := Run(t.state, ticks[1..]);
      CounterFollowsFires(t.state, ticks[1..]);
      if t.fired.Some? {
        assert Run(s, ticks).fired == [s.step] + rest.fired;
      } else {
        assert Run(s, ticks).fired == rest.fired;
      }
    }
  }

  /**
   * Whatever the tick sizes, the fired steps are consecutive step numbers
   * starting at the current one, at most one per tick, and the counter ends
   * as many steps further on. Without a started event no step ever fires.
   */
  lemma {:induction false} StepsFireInOrder(s: MedivhState, ticks: seq<TickInput>)
    ensures var r := Run(s, ticks);
      r.fired == Consecutive(s.step, |r.fired|)
      && |r.fired| <= |ticks|
      && r.state.step == (s.step + |r.fired|) % 256
      && (!s.eventStarted ==> r.fired == [])
  {
    var r := Run(s, ticks);
    CounterFollowsFires(s, ticks);
    AdvanceWraps(s.step, |r.fired|);
  }

  /** From a freshly started image, the i-th step to fire is step i + 1, for the first 255 fires. */
  lemma DuelStartsAtStepOne(s: MedivhState, ticks: seq<TickInput>, i: nat)
    requires s.step == 1
    requires i < |Run(s, ticks).fired| && i < 255
    ensures Run(s, ticks).fired[i] == i + 1
  {
    StepsFireInOrder(s, ticks);
    ConsecutiveAt(1, |Run(s, ticks).fired|, i);
    AdvanceWraps(1, i);
  }

  // ---------------------------------------------------------------------------
  // Reset

  /** What `Reset` does; `register` says whether it registers this image with the instance. */
  datatype ResetOutcome = ResetOutcome(state: MedivhState, register: bool, effects: seq<Effect>)

  /**
   * `Reset`: the image starts the event only when the instance exists, no image
   * is registered yet and the Arcanagos summon succeeds; in every other case it
   * despawns itself. The step counter and its countdown are left as they were.
   */
  function ResetState(s: MedivhState, hasInstance: bool, registered: bool, summoned: Option<Guid>): (r: ResetOutcome)
    ensures r.register <==> hasInstance && !registered && summoned.Some?
    ensures r.state.eventStarted <==> s.eventStarted || r.register
    ensures r.state.aTimer == 0 && r.state.mTimer == 0
    ensures r.state.step == s.step && r.state.yellTimer == s.yellTimer
    ensures r.state.arcanagos == (if r.register then summoned else None)
    ensures r.register <==> Despawn(Self, 0) !in r.effects
    ensures Summon(NPC_ARCANAGOS) in r.effects <==> hasInstance && !registered
  {
    var cleared := s.(arcanagos := None, aTimer := 0, mTimer := 0);
    if hasInstance && !registered then
      if summoned.None? then
        ResetOutcome(cleared, false, [Summon(NPC_ARCANAGOS), Despawn(Self, 0)])
      else
        ResetOutcome(cleared.(eventStarted := true, arcanagos := summoned), true, [Summon(NPC_ARCANAGOS)])
    else
      ResetOutcome(cleared, false, [Despawn(Self, 0)])
  }

  /** A fresh image whose first `Reset` does not register it never fires a step. */
  lemma FailedStartFiresNothing(hasInstance: bool, registered: bool, summoned: Option<Guid>,
                                ticks: seq<TickInput>)
    requires !ResetState(Initial(), hasInstance, registered, summoned).register
    ensures Run(ResetState(Initial(), hasInstance, registered, summoned).state, ticks).fired == []
  {
    StepsFireInOrder(ResetState(Initial(), hasInstance, registered, summoned).state, ticks);
  }

  // ---------------------------------------------------------------------------
  // The creature script

  class MedivhAI {
    const me: Guid
    const instance: Instance?
    var arcanagos: Option<Guid>
    var yellTimer: uint32
    var step: uint8
    var mTimer: int32
    var aTimer: int32
    var eventStarted: bool
    var log: seq<Effect>

    function State(): MedivhState
      reads this
    {
      MedivhState(arcanagos, yellTimer, step, aTimer, mTimer, eventStarted)
    }

    constructor (me: Guid, instance: Instance?)
      ensures this.me == me && this.instance == instance
      ensures State() == Initial() && log == []
    {
      this.me := me;
      this.instance := instance;
      arcanagos := None;
      yellTimer := 5000;
      step := 1;
      mTimer := 0;
      aTimer := 0;
      eventStarted := false;
      log := [];
    }

    /** `summoned` is the Arcanagos the host returns, or `None` when the summon fails. */
    method Reset(summoned: Option<Guid>)
      modifies this, instance
      ensures var r := ResetState(old(State()), instance != null,
                                  instance != null && ImageOfMedivh in old(instance.guids), summoned);
        State() == r.state && log == old(log) + r.effects
        && (instance != null ==>
              instance.guids == (if r.register then old(instance.guids)[ImageOfMedivh := me] else old(instance.guids))
              && instance.bossStates == old(instance.bossStates) && instance.data == old(instance.data))
    {
      arcanagos := None;
      mTimer := 0;
      aTimer := 0;
      if instance != null && ImageOfMedivh !in instance.guids {
        log := log + [Summon(NPC_ARCANAGOS)];
        if summoned.None? {
          log := log + [Despawn(Self, 0)];
          return;
        }
        instance.SetGuidData(ImageOfMedivh, me);
        eventStarted := true;
        arcanagos := summoned;
      } else {
        log := log + [Despawn(Self, 0)];
      }
    }

    /** Performs step `n` and returns the wait before the next one. */
    method NextStep(n: uint32, live: set<Guid>) returns (wait: uint32)
      modifies this
      ensures wait == StepWait(n)
      ensures log == old(log) + StepEffects(n, Resolves(arcanagos, live))
      ensures State() == if n == 6 then old(State()).(aTimer := 5500, mTimer := 6600) else old(State())
    {
      var arca := Resolves(arcanagos, live);
      match n {
        case 1 =>
          log := log + [Say(Self, SAY_DIALOG_MEDIVH_1)];
          return 10000;
        case 2 =>
          if arca { log := log + [Say(Arcanagos, SAY_DIALOG_ARCANAGOS_2)]; }
          return 20000;
        case 3 =>
          log := log + [Say(Self, SAY_DIALOG_MEDIVH_3)];
          return 10000;
        case 4 =>
          if arca { log := log + [Say(Arcanagos, SAY_DIALOG_ARCANAGOS_4)]; }
          return 20000;
        case 5 =>
          log := log + [Say(Self, SAY_DIALOG_MEDIVH_5)];
          return 20000;
        case 6 =>
          if arca { log := log + [Say(Arcanagos, SAY_DIALOG_ARCANAGOS_6)]; }
          aTimer := 5500;
          mTimer := 6600;
          return 10000;
        case 7 =>
          return 1000;
        case 8 =>
          log := log + [Cast(Self, Self, SPELL_MANA_SHIELD)];
          return 5500;
        case 9 =>
          log := log + [TextEmote(Self, EMOTE_DIALOG_MEDIVH_7), Cast(Self, Self, SPELL_STEP_NINE_AURA)];
          return 10000;
        case 10 =>
          log := log + [RemoveAura(Self, SPELL_STEP_NINE_AURA)];
          if arca { log := log + [Cast(Self, Arcanagos, SPELL_CONFLAGRATION_BLAST)]; }
          return 1000;
        case 11 =>
          if arca { log := log + [Say(Arcanagos, SAY_DIALOG_ARCANAGOS_8)]; }
          return 5000;
        case 12 =>
          if arca { log := log + [FlyAway(Arcanagos)]; }
          return 10000;
        case 13 =>
          log := log + [Say(Self, SAY_DIALOG_MEDIVH_9)];
          return 10000;
        case 14 =>
          log := log + [Despawn(Self, 100)];
          if arca { log := log + [Despawn(Arcanagos, 100)]; }
          return 5000;
        case _ =>
          return 2000;
      }
    }

    /** One tick: the step countdown, then the fireball exchange. */
    method UpdateAI(diff: uint32, live: set<Guid>)
      modifies this
      ensures State() == Update(old(State()), diff, live).state
      ensures log == old(log) + Update(old(State()), diff, live).effects
    {
      CountDown(diff, live);
      ghost var y := Yell(old(State()), diff, live);
      TradeFireballs(diff, live);
      ghost var x := Exchange(y.state, diff, live);
      assert Update(old(State()), diff, live) == Ticked(x.state, y.effects + x.effects, y.fired);
    }

    /** The first half of `UpdateAI`, kept inline there by the script: the step countdown. */
    method CountDown(diff: uint32, live: set<Guid>)
      modifies this
      ensures State() == Yell(old(State()), diff, live).state
      ensures log == old(log) + Yell(old(State()), diff, live).effects
    {
      if yellTimer <= diff {
        if eventStarted {
          var n := step;
          step := Next(step);
          yellTimer := NextStep(n, live);
        }
      } else {
        yellTimer := yellTimer - diff;
      }
    }

    /** The second half of `UpdateAI`, kept inline there by the script: the fireball exchange. */
    method TradeFireballs(diff: uint32, live: set<Guid>)
      modifies this
      ensures State() == Exchange(old(State()), diff, live).state
      ensures log == old(log) + Exchange(old(State()), diff, live).effects
    {
      if 7 <= step <= 8 {
        ghost var s := State();
        aTimer := AddInt32(aTimer, diff);
        mTimer := AddInt32(mTimer, diff);
        ghost var a, m := aTimer, mTimer;
        if aTimer >= 6000 {
          if Resolves(arcanagos, live) {
            log := log + [Cast(Arcanagos, Self, SPELL_FIRE_BALL)];
          }
          aTimer := 0;
        }
        if mTimer >= 6000 {
          if Resolves(arcanagos, live) {
            log := log + [Cast(Self, Arcanagos, SPELL_FIRE_BALL)];
          }
          mTimer := 0;
        }
        assert Exchange(s, diff, live).state == s.(aTimer := if a >= 6000 then 0 else a, mTimer := if m >= 6000 then 0 else m);
      }
    }
  }
}

=== FILE: wrath_titans.dfy ===
/**
 * Wrath of the Titans, the buff of the Karazhan relic. The stacker spell gives
 * the caster the aura with five charges; each qualifying spell the wearer casts
 * spends one charge and adds a bolt of the spell's school. The host removes the
 * aura when its stack reaches zero.
 */
module WrathOfTitans {
  import opened KarazhanHost

  const SPELL_WRATH_OF_THE_TITANS: nat := 30554
  const SPELL_WRATH_PROC_BLAST: nat := 30605
  const SPELL_WRATH_PROC_BOLT: nat := 30606
  const SPELL_WRATH_PROC_FLAME: nat := 30607
  const SPELL_WRATH_PROC_SPITE: nat := 30608
  const SPELL_WRATH_PROC_CHILL: nat := 30609

  /** The first school of a spell's school mask. */
  datatype School = Normal | Holy | Fire | Nature | Frost | Shadow | Arcane

  /**
   * The bolt a school adds, as `HandleProc`'s switch chooses it. Exactly the
   * five magic schools other than holy have one, and no two share a bolt.
   */
  function ProcSpell(school: School): (spell: Option<nat>)
    ensures spell.Some? <==> school != Normal && school != Holy
    ensures spell.Some? ==> SPELL_WRATH_PROC_BLAST <= spell.value <= SPELL_WRATH_PROC_CHILL
  {
    match school
    case Fire => Some(SPELL_WRATH_PROC_FLAME)
    case Nature => Some(SPELL_WRATH_PROC_BOLT)
    case Frost => Some(SPELL_WRATH_PROC_CHILL)
    case Shadow => Some(SPELL_WRATH_PROC_SPITE)
    case Arcane => Some(SPELL_WRATH_PROC_BLAST)
    case _ => None
  }

  lemma ProcSpellInjective(a: School, b: School)
    requires ProcSpell(a).Some? && ProcSpell(a) == ProcSpell(b)
    ensures a == b
  {
  }

  /**
   * `CheckProc`: a proc without spell information, or of a physical or holy
   * spell, is refused. What it accepts is exactly what `HandleProc` has a bolt for.
   */
  function CheckProc(school: Option<School>): (ok: bool)
    ensures ok <==> school.Some? && school.value != Normal && school.value != Holy
    ensures ok <==> school.Some? && ProcSpell(school.value).Some?
  {
    if school.None? then false
    else if school.value == Normal then false
    else if school.value == Holy then false
    else true
  }

  /** The bolt cast, if any, and the aura's stack afterwards. */
  datatype ProcOutcome = ProcOutcome(cast: Option<nat>, stack: int)

  /**
   * `HandleProc`: with a target and a player wearing the aura, a school that has
   * a bolt casts it and spends exactly one charge; otherwise nothing happens.
   */
  function HandleProc(hasTarget: bool, casterIsPlayer: bool, school: School, stack: int): (r: ProcOutcome)
    ensures r.cast.Some? <==> hasTarget && casterIsPlayer && ProcSpell(school).Some?
    ensures r.cast.Some? ==> r.cast == ProcSpell(school) && r.stack == stack - 1
    ensures r.cast.None? ==> r.stack == stack
  {
    if !hasTarget || !casterIsPlayer then ProcOutcome(None, stack)
    else
      match ProcSpell(school)
      case None => ProcOutcome(None, stack)
      case Some(spell) => ProcOutcome(Some(spell), stack - 1)
  }

  /** The stack the stacker leaves, with the effects it asks for. */
  datatype StackerOutcome = StackerOutcome(effects: seq<Effect>, stack: Option<int>)

  /**
   * `HandleDummy` of the stacker: the caster casts the aura on itself and, if it
   * then wears the aura, its stack is set to five. `aura` is the stack the host
   * reports after that cast, `None` when the caster wears no aura.
   */
  function HandleDummy(hasCaster: bool, aura: Option<int>): (r: StackerOutcome)
    ensures hasCaster <==> r.effects == [Cast(Self, Self, SPELL_WRATH_OF_THE_TITANS)]
    ensures !hasCaster ==> r.effects == []
    ensures hasCaster && aura.Some? ==> r.stack == Some(5)
    ensures !(hasCaster && aura.Some?) ==> r.stack == aura
  {
    if !hasCaster then StackerOutcome([], aura)
    else if aura.Some? then StackerOutcome([Cast(Self, Self, SPELL_WRATH_OF_THE_TITANS)], Some(5))
    else StackerOutcome([Cast(Self, Self, SPELL_WRATH_OF_THE_TITANS)], None)
  }

  // ---------------------------------------------------------------------------
  // A sequence of procs

  /** One spell cast by the aura's wearer: its school (if it has spell information), target, and wearer. */
  datatype ProcEvent = ProcEvent(school: Option<School>, hasTarget: bool, casterIsPlayer: bool)

  predicate Qualifies(e: ProcEvent)
  {
    CheckProc(e.school) && e.hasTarget && e.casterIsPlayer
  }

  /** The host runs `HandleProc` only for procs `CheckProc` accepts. */
  function Proc(e: ProcEvent, stack: int): (r: ProcOutcome)
    ensures r.cast.Some? <==> Qualifies(e)
    ensures r.stack == (if Qualifies(e) then stack - 1 else stack)
  {
    if CheckProc(e.school) then HandleProc(e.hasTarget, e.casterIsPlayer, e.school.value, stack)
    else ProcOutcome(None, stack)
  }

  datatype ProcTrace = ProcTrace(casts: seq<nat>, stack: int)

  function ProcAll(events: seq<ProcEvent>, stack: int): ProcTrace
    decreases |events|
  {
    if events == [] then ProcTrace([], stack)
    else
      var p := Proc(events[0], stack);
      var rest := ProcAll(events[1..], p.stack);
      ProcTrace((if p.cast.Some? then [p.cast.value] else []) + rest.casts, rest.stack)
  }

  /**
   * A run of qualifying procs casts, in order, the bolt of each proc's school
   * and spends exactly one charge per proc.
   */
  lemma {:induction false} QualifyingProcsSpendCharges(events: seq<ProcEvent>, stack: int)
    requires forall i :: 0 <= i < |events| ==> Qualifies(events[i])
    ensures ProcAll(events, stack).stack == stack - |events|
    ensures |ProcAll(events, stack).casts| == |events|
    ensures forall i :: 0 <= i < |events| ==>
      events[i].school.Some? && ProcSpell(events[i].school.value) == Some(ProcAll(events, stack).casts[i])
    decreases |events|
  {
    if events != [] {
      var p := Proc(events[0], stack);
      QualifyingProcsSpendCharges(events[1..], p.stack);
      var rest := ProcAll(events[1..], p.stack);
      assert ProcAll(events, stack).casts == [p.cast.value] + rest.casts;
      forall i | 1 <= i < |events|
        ensures events[i].school.Some? && ProcSpell(events[i].school.value) == Some(ProcAll(events, stack).casts[i])
      {
        assert events[i] == events[1..][i - 1];
      }
    }
  }

  /** Five qualifying procs after the stacker cast five bolts and leave no charge. */
  lemma FiveProcsSpendTheStacker(events: seq<ProcEvent>, aura: int)
    requires |events| == 5
    requires forall i :: 0 <= i < |events| ==> Qualifies(events[i])
    ensures var start := HandleDummy(true, Some(aura)).stack.value;
      |ProcAll(events, start).casts| == 5 && ProcAll(events, start).stack == 0
  {
    QualifyingProcsSpendCharges(events, 5);
  }
}
